=== FILE: README.md ===
# Picture-in-picture media controller, modelled in Dafny

This project models `PipMediaController`, the SystemUI component that decides
which single media action the picture-in-picture (PiP) overlay offers for the
top pinned activity. The component has four parts:

- It picks the active media controller: the first session, in list order, owned
  by the top pinned activity's package.
- It swaps the active controller. The playback callback moves from the old
  controller to the new one, and the listeners are told about the change.
- It derives the action list from the active controller's playback state. The
  list holds zero or one action.
- It keeps an ordered, duplicate-free list of action listeners.

It also forwards play/pause broadcasts from the overlay buttons to the active
session.

Each callback the host delivers is a pure function from a `State` to a `Step`.
A `Step` holds the new state and the effects in the order the source performs
them. There are four kinds of effect:

- a delivery of an action list to a listener;
- a registration of the playback callback on a controller;
- an unregistration of the playback callback;
- a transport command sent to a session.

The state's set of controllers carrying the callback is computed by replaying
the register/unregister effects. So the invariant "the callback is on at most
one controller, the active one" is a statement about the effect log.

Files:

- `types.dfy` (module `PipTypes`): controllers, playback states, capability
  flags, actions, effects, state.
- `actions.dfy` (module `PipActions`): the action rule, the broadcast strings,
  and how the receiver decodes them.
- `listeners.dfy` (module `PipListeners`): duplicate-free lists, removal by
  value, and the notification fan-out.
- `registrations.dfy` (module `PipRegistrations`): the replay of the playback
  callback's register/unregister calls from an effect log.
- `controller.dfy` (module `PipMediaController`): the transitions, event runs,
  and the invariant.

Abstractions:

- A media controller is `(id, package, optional playback state)`. The `id`
  stands for the object identity the source compares with `!=`.
- The playback state stored in the active controller stands for the live
  `getPlaybackState()` query. The playback callback event carries the new state.
- The top pinned package is an `Option<string>`; `None` means no pinned activity.
- The session list is an input: `None` stands for a null list.
- The two `RemoteAction` singletons are the values `PlayAction` and `PauseAction`.

The receiver dereferences the active controller without a null check. A
reimplementation would guard that case, but the model follows the code as
written. It makes an active controller a precondition of `OnReceive` for the two
known broadcasts. An event run that reaches that point yields `None`.

The action rule offers the pause button (which fires the pause broadcast) to a
session that is not playing, and the play button to one that is playing.
`PressOfferedAction` proves the consequence: pressing the offered button sends
pause to a paused session and play to a playing one. The model keeps this rule
exactly as written.

## Model

| member | source | states |
|---|---|---|
| PipActions.ActionsFor | packages/SystemUI/src/com/android/systemui/pip/phone/PipMediaController.java:146-153 | At most one action. Exactly `[PauseAction]` iff not active and play-capable. Exactly `[PlayAction]` iff active and pause-capable. Empty iff neither holds. |
| PipActions.MediaActions | packages/SystemUI/src/com/android/systemui/pip/phone/PipMediaController.java:140-154 | Empty when there is no active controller or it has no playback state. Otherwise exactly the action rule applied to the controller's playback state. At most one action in every case. |
| PipActions.CommandFor | packages/SystemUI/src/com/android/systemui/pip/phone/PipMediaController.java:75-80 | The receiver maps the play string to play and the pause string to pause, each in both directions. Every other string maps to nothing. |
| PipActions.IntentOf | packages/SystemUI/src/com/android/systemui/pip/phone/PipMediaController.java:160-172 | Round trip: decoding an action's broadcast gives back that action's command. Only the play action fires the play broadcast. |
| PipActions.OfferedActionCommand | packages/SystemUI/src/com/android/systemui/pip/phone/PipMediaController.java:146-153 | If an action is offered, the controller and its playback state exist. The offered action's command is pause iff the session is not playing. |
| PipListeners.RemoveFirst | packages/SystemUI/src/com/android/systemui/pip/phone/PipMediaController.java:134 | Removal by value leaves a list without the value unchanged. Otherwise it shortens the list by exactly one. |
| PipListeners.RemoveFirstMultiset | packages/SystemUI/src/com/android/systemui/pip/phone/PipMediaController.java:134 | Removal by value takes out exactly one occurrence of the value and nothing else (multiset difference). |
| PipListeners.RemoveFirstDropsFirst | packages/SystemUI/src/com/android/systemui/pip/phone/PipMediaController.java:134 | Removal by value drops exactly the first occurrence. Every element before it and every element after it is kept, in order. |
| PipListeners.RemoveFirstIsWithout | packages/SystemUI/src/com/android/systemui/pip/phone/PipMediaController.java:134 | On a duplicate-free list, removal equals the reference filter "all other elements in order". |
| PipListeners.WithoutKeepsNoDup | packages/SystemUI/src/com/android/systemui/pip/phone/PipMediaController.java:134 | Removing a listener keeps the list duplicate-free. |
| PipListeners.Deliveries | packages/SystemUI/src/com/android/systemui/pip/phone/PipMediaController.java:219 | One delivery per listener. The i-th delivery goes to the i-th listener, and all carry the same list. |
| PipListeners.Notify | packages/SystemUI/src/com/android/systemui/pip/phone/PipMediaController.java:217-220 | Same as the fan-out. Nothing is delivered without listeners. Every effect is a delivery of the given list to a registered listener. |
| PipRegistrations.ReplayAppend | packages/SystemUI/src/com/android/systemui/pip/phone/PipMediaController.java:199-204 | Replaying a concatenated log of register/unregister calls equals replaying its parts in turn. |
| PipMediaController.SetActiveMediaController | packages/SystemUI/src/com/android/systemui/pip/phone/PipMediaController.java:197-212 | Same identity (null with null included): no state change and no effects. Otherwise the candidate becomes active and the listeners stay. The log is a swap log (`SwapLog`): only the old controller is unregistered and only the new one registered, unregister first. Then each listener in order gets the candidate's actions, and nothing goes out when there are no listeners. The state's registrations are the replay of that log. |
| PipMediaController.SwapEffects | packages/SystemUI/src/com/android/systemui/pip/phone/PipMediaController.java:199-208 | Unregistering the old controller, then registering the new one, then notifying the listeners produces exactly a swap log. |
| PipMediaController.SetActiveKeepsValid | packages/SystemUI/src/com/android/systemui/pip/phone/PipMediaController.java:199-205 | From a valid state, the replayed registrations afterwards are exactly the candidate's identity. The invariant is preserved. |
| PipMediaController.FirstMatch | packages/SystemUI/src/com/android/systemui/pip/phone/PipMediaController.java:182-188 | The index found holds the package and no earlier index does. With no index found, no element holds the package. |
| PipMediaController.Candidate | packages/SystemUI/src/com/android/systemui/pip/phone/PipMediaController.java:177-192 | None iff the list is null, there is no pinned activity, or nothing matches. Otherwise it is the first session of the pinned package. |
| PipMediaController.ResolveActiveMediaController | packages/SystemUI/src/com/android/systemui/pip/phone/PipMediaController.java:177-192 | Afterwards no controller is active iff the list is null, nothing is pinned, or nothing matches. Otherwise the active identity is that of the first session of the pinned package. The listeners are unchanged. If the resulting identity is the current one, there is no state change and no effect. Otherwise the new active value is exactly the first matching session, playback state included, and the log is a swap log from the old controller to the new one: unregister, register, then the new actions to every listener in order. |
| PipMediaController.OnActivityPinned | packages/SystemUI/src/com/android/systemui/pip/phone/PipMediaController.java:114-117 | Pinning runs the full resolution on whatever the session registry returns, a null list included. No controller is active iff the list is null, nothing is pinned or no session matches. Otherwise the active identity is that of the first session of the pinned package. Same identity: no change and no effect. Otherwise the new active value is exactly the first matching session, and the log is a swap log. The registrations are always the replay of that log. |
| PipMediaController.AddListener | packages/SystemUI/src/com/android/systemui/pip/phone/PipMediaController.java:122-127 | A present listener changes nothing and receives nothing. A new one is appended and receives the current actions at once. Duplicate-freedom is kept, and the controller and registrations are untouched. |
| PipMediaController.RemoveListener | packages/SystemUI/src/com/android/systemui/pip/phone/PipMediaController.java:132-135 | The listener always receives an empty list, even when absent. One occurrence leaves the list, and an absent listener leaves the state unchanged. |
| PipMediaController.RemoveListenerKeepsOrder | packages/SystemUI/src/com/android/systemui/pip/phone/PipMediaController.java:132-135 | On a duplicate-free list, the listener is absent afterwards. The list stays duplicate-free and the other listeners keep their relative order. |
| PipMediaController.AddThenRemove | packages/SystemUI/src/com/android/systemui/pip/phone/PipMediaController.java:122-135 | Inverse pair: adding a new listener and then removing it restores the state. The listener hears the current actions and then the empty list. |
| PipMediaController.OnPlaybackStateChanged | packages/SystemUI/src/com/android/systemui/pip/phone/PipMediaController.java:84-91 | Listeners, registrations and the active identity and package are unchanged. Only the playback state of the active controller is refreshed. Every listener, in registration order, receives the same recomputed list. Nothing goes out without listeners. |
| PipMediaController.OnReceive | packages/SystemUI/src/com/android/systemui/pip/phone/PipMediaController.java:72-82 | The play broadcast sends play to the active controller and the pause broadcast sends pause. Any other string does nothing. An active controller is required only for the two known strings. |
| PipMediaController.PressOfferedAction | packages/SystemUI/src/com/android/systemui/pip/phone/PipMediaController.java:75-80 | Pressing the offered action sends its own command to the active session: pause when not playing, play when playing. |
| PipMediaController.HandleKeepsValid | packages/SystemUI/src/com/android/systemui/pip/phone/PipMediaController.java:84-135 | Every callback keeps listeners duplicate-free and the callback on the active controller only. The registrations equal the replay of its own log. |
| PipMediaController.RunKeepsValid | packages/SystemUI/src/com/android/systemui/pip/phone/PipMediaController.java:177-212 | Any run of callbacks from a valid state ends valid. The final registrations equal the replay of the whole log. |
| PipMediaController.CallbackFollowsActive | packages/SystemUI/src/com/android/systemui/pip/phone/PipMediaController.java:197-212 | From construction, after any run, the log's register/unregister calls leave the callback on exactly the active controller's identity, so on at most one. The listeners stay duplicate-free. |
| PipMediaController.SetActiveIdempotent | packages/SystemUI/src/com/android/systemui/pip/phone/PipMediaController.java:198 | Setting the same candidate a second time has no effect. |
| PipMediaController.ResolveExample | packages/SystemUI/src/com/android/systemui/pip/phone/PipMediaController.java:177-192 | Sessions `a` (playing, pausable) and `b` (paused, playable) with `b` pinned: `b` becomes active, is the only one registered, and the pause button is offered. |
| PipMediaController.NoMatchExample | packages/SystemUI/src/com/android/systemui/pip/phone/PipMediaController.java:177-192 | A pinned package with no session: nothing is active, there are no effects, and no action is offered. |

## Left out

- Construction plumbing (lines 95-109): the broadcast receiver and its intent filter, and the session-manager subscription. These are platform wiring. The subscription callback is the `SessionsChanged` event, which calls `ResolveActiveMediaController`.
- `createMediaActions` (lines 160-172): icons, string resources, `PendingIntent` and `RemoteAction` objects. Only the broadcast string each action fires is kept (`IntentOf`).
- `PipUtils.getTopPinnedActivity` and `MediaSessionManager.getActiveSessions` are foreign calls. Their results are inputs: the pinned package and the session list.
- `MediaSession.isActiveState` and the numeric values of `PlaybackState.ACTION_PLAY` and `ACTION_PAUSE` are library code. They are modelled as the boolean `isActive` and two distinct capability flags in a set; a bit test becomes set membership.
- Re-entrant listener calls: `onMediaActionsChanged` runs synchronously, at line 219 inside `mListeners.forEach`, at line 125 right after the add, and at line 133 before the removal. A listener that calls `addListener` or `removeListener` from there would change the list mid-transition. Inside the `forEach` at line 219, `ArrayList` would throw `ConcurrentModificationException`. The model treats a delivery as an output that cannot call back into the controller, because listener code is not part of this component. So no transition observes such a nested call, and the exception is not modelled.
- Threading: the source relies on the host delivering callbacks one at a time, so transitions are strictly sequential.
- A null listener: `ListenerId` is a plain number, so no listener is null. In Java, `addListener(null)` appends the null and then throws at line 125. The null stays in the list, so every later notification throws at line 219. `removeListener(null)` throws at line 133 before removing anything. Callers register concrete listener objects, so the model leaves these failures out.
- A null broadcast action string: the intent filter only admits the two known actions, so the action string is modelled as a non-null string.
- The TODO about closing PiP after a timeout (line 210) is not behaviour.
- ResolveActiveMediaController: when the first match has the same identity as the current controller, the stored value is kept rather than replaced by the match. Java compares references there, so it is the same object and the two agree.
- OnPlaybackStateChanged: the Java callback ignores its argument and re-queries the controller. The model stores the reported state in the active controller before recomputing, which stands for that live query.

=== FILE: actions.dfy ===
/** Which media action the overlay offers, the broadcast each action fires, and
    how the broadcast receiver turns a broadcast back into a transport command. */
module PipActions {
  import opened PipTypes

  /** Broadcast action strings shared by the pending intents and the receiver. */
  const ACTION_PLAY: string := "com.android.systemui.pip.phone.PLAY"
  const ACTION_PAUSE: string := "com.android.systemui.pip.phone.PAUSE"

  /** The action rule for a session that has a playback state. The pause button
      is offered to a session that is not playing but can play, the play button
      to a session that is playing and can pause; nothing otherwise. */
  function ActionsFor(pb: PlaybackState): (r: seq<MediaAction>)
    ensures |r| <= 1
    ensures r == [PauseAction] <==> !pb.isActive && PlayCapability in pb.actions
    ensures r == [PlayAction] <==> pb.isActive && PauseCapability in pb.actions
    ensures r == [] <==> (if pb.isActive then PauseCapability !in pb.actions else PlayCapability !in pb.actions)
  {
    if !pb.isActive && PlayCapability in pb.actions then [PauseAction]
    else if pb.isActive && PauseCapability in pb.actions then [PlayAction]
    else []
  }

  /** The actions currently available for the active controller: empty without
      a controller or without a playback state, otherwise the action rule. */
  function MediaActions(active: Option<Controller>): (r: seq<MediaAction>)
    ensures |r| <= 1
    ensures active.None? ==> r == []
    ensures active.Some? && active.value.playback.None? ==> r == []
    ensures active.Some? && active.value.playback.Some? ==> r == ActionsFor(active.value.playback.value)
  {
    match active
    case None => []
    case Some(c) =>
      match c.playback
      case None => []
      case Some(pb) => ActionsFor(pb)
  }

  /** The transport command an action stands for. */
  function CommandOf(a: MediaAction): Command
  {
    match a
    case PlayAction => Play
    case PauseAction => Pause
  }

  /** How the receiver decodes a broadcast action string: play, pause, or
      nothing for any other string. */
  function CommandFor(intentAction: string): (r: Option<Command>)
    ensures r == Some(Play) <==> intentAction == ACTION_PLAY
    ensures r == Some(Pause) <==> intentAction == ACTION_PAUSE
    ensures r == None <==> intentAction != ACTION_PLAY && intentAction != ACTION_PAUSE
  {
    if intentAction == ACTION_PLAY then Some(Play)
    else if intentAction == ACTION_PAUSE then Some(Pause)
    else None
  }

  /** The broadcast an action's pending intent fires. Decoding it gives back the
      action's own command; only the play action fires the play broadcast. */
  function IntentOf(a: MediaAction): (r: string)
    ensures CommandFor(r) == Some(CommandOf(a))
    ensures r == ACTION_PLAY <==> a == PlayAction
  {
    match a
    case PlayAction => ACTION_PLAY
    case PauseAction => ACTION_PAUSE
  }

  /** Pressing the offered button sends the command that matches the session's
      current state: pause to a session that is not playing, play to one that
      is. The offered button therefore never toggles playback. */
  lemma OfferedActionCommand(active: Option<Controller>, a: MediaAction)
    requires MediaActions(active) == [a]
    ensures active.Some? && active.value.playback.Some?
    ensures CommandOf(a) == Pause <==> !active.value.playback.value.isActive
    ensures CommandFor(IntentOf(a)) == Some(CommandOf(a))
  {
    var pb := active.value.playback.value;
    assert ActionsFor(pb) == [a];
  }
}

=== FILE: controller.dfy ===
/** The media controller of the picture-in-picture overlay as a state machine.
    Every callback the host delivers is one pure transition from a `State` to a
    `Step`: the new state plus the effects (deliveries to listeners, callback
    registrations, transport commands) in the order the Java `PipMediaController` performs them.
    The host delivers callbacks one at a time, so transitions are sequential. */
module PipMediaController {
  import opened PipTypes
  import opened PipActions
  import opened PipListeners
  import opened PipRegistrations

  /** The state right after construction: no active controller, no listeners,
      the playback callback registered nowhere. */
  const Init: State := State(None, [], {})

  /** What every reachable state keeps: the listener list has no duplicates, and
      the playback callback is registered on the active controller and on no
      other. */
  predicate Valid(s: State)
  {
    NoDup(s.listeners) && s.registered == IdsOf(s.active)
  }

  /** Unregistration of the callback from the outgoing controller, if any. */
  function Teardown(outgoing: Option<Controller>): seq<Effect>
  {
    match outgoing
    case None => []
    case Some(c) => [UnregisterCallback(c.id)]
  }

  /** Registration of the callback on the incoming controller, if any. */
  function Subscribe(incoming: Option<Controller>): seq<Effect>
  {
    match incoming
    case None => []
    case Some(c) => [RegisterCallback(c.id)]
  }

  /** The log of a controller swap: first the outgoing controller loses the
      callback, then the incoming one gains it, then each listener, in list
      order, receives `actions`; no other controller is registered or
      unregistered, and nothing goes out when there are no listeners. */
  ghost predicate SwapLog(effects: seq<Effect>, outgoing: Option<Controller>, incoming: Option<Controller>,
                    ls: seq<ListenerId>, actions: seq<MediaAction>)
  {
    && |effects| == |IdsOf(outgoing)| + |IdsOf(incoming)| + |ls|
    && (forall c :: UnregisterCallback(c) in effects <==> c in IdsOf(outgoing))
    && (forall c :: RegisterCallback(c) in effects <==> c in IdsOf(incoming))
    && (outgoing.Some? && incoming.Some? ==>
          effects[0] == UnregisterCallback(outgoing.value.id) && effects[1] == RegisterCallback(incoming.value.id))
    && (forall i :: 0 <= i < |ls| ==> effects[|effects| - |ls| + i] == Deliver(ls[i], actions))
  }

  /** Replaces the active controller. A candidate with the same identity as the
      current one (both absent included) changes nothing. Otherwise the
      candidate becomes active and the effects are those of a swap, with the
      listeners receiving the candidate's actions. */
  function SetActiveMediaController(s: State, candidate: Option<Controller>): (r: Step)
    ensures IdOf(candidate) == IdOf(s.active) ==> r == Step(s, [])
    ensures IdOf(candidate) != IdOf(s.active) ==>
      && r.state.active == candidate
      && r.state.listeners == s.listeners
      && SwapLog(r.effects, s.active, candidate, s.listeners, MediaActions(candidate))
    ensures r.state.registered == Replay(s.registered, r.effects)
  {
    if IdOf(candidate) == IdOf(s.active) then Step(s, [])
    else
      var effects := Teardown(s.active) + Subscribe(candidate) + Notify(s.listeners, MediaActions(candidate));
      SwapEffects(s.active, candidate, s.listeners, MediaActions(candidate));
      Step(State(candidate, s.listeners, Replay(s.registered, effects)), effects)
  }

  /** Teardown, then subscription, then the fan-out is a swap log. */
  lemma SwapEffects(outgoing: Option<Controller>, incoming: Option<Controller>, ls: seq<ListenerId>, actions: seq<MediaAction>)
    ensures SwapLog(Teardown(outgoing) + Subscribe(incoming) + Notify(ls, actions), outgoing, incoming, ls, actions)
  {
    var t, sub, n := Teardown(outgoing), Subscribe(incoming), Notify(ls, actions);
    var effects := t + sub + n;
    assert |t| == |IdsOf(outgoing)| && |sub| == |IdsOf(incoming)|;
    assert forall e :: e in n ==> e.Deliver?;
    forall i | 0 <= i < |ls| ensures effects[|effects| - |ls| + i] == Deliver(ls[i], actions) {
      assert effects[|effects| - |ls| + i] == n[i];
    }
    forall c ensures UnregisterCallback(c) in effects <==> c in IdsOf(outgoing) {
      assert UnregisterCallback(c) in effects <==> UnregisterCallback(c) in t || UnregisterCallback(c) in sub || UnregisterCallback(c) in n;
    }
    forall c ensures RegisterCallback(c) in effects <==> c in IdsOf(incoming) {
      assert RegisterCallback(c) in effects <==> RegisterCallback(c) in t || RegisterCallback(c) in sub || RegisterCallback(c) in n;
    }
  }

  /** Replacing the controller keeps the invariant: afterwards the callback is
      registered on the new controller only, or nowhere when there is none. */
  lemma SetActiveKeepsValid(s: State, candidate: Option<Controller>)
    requires Valid(s)
    ensures Valid(SetActiveMediaController(s, candidate).state)
    ensures SetActiveMediaController(s, candidate).state.registered == IdsOf(candidate)
  {
    if IdOf(candidate) != IdOf(s.active) {
      var teardown, subscribe := Teardown(s.active), Subscribe(candidate);
      var notify := Notify(s.listeners, MediaActions(candidate));
      assert Replay(s.registered, teardown) == {} by {
        if s.active.Some? {
          assert teardown[1..] == [];
        }
      }
      assert Replay({}, subscribe) == IdsOf(candidate) by {
        if candidate.Some? {
          assert subscribe[1..] == [];
        }
      }
      ReplayAppend(s.registered, teardown, subscribe);
      ReplayAppend(s.registered, teardown + subscribe, notify);
      NotifyKeepsRegistrations(IdsOf(candidate), s.listeners, MediaActions(candidate));
    }
  }

  /** Index of the first controller, in list order, owned by package `pkg`. */
  function FirstMatch(cs: seq<Controller>, pkg: string): (r: Option<nat>)
    ensures r.Some? ==>
      && r.value < |cs|
      && cs[r.value].pkg == pkg
      && forall j :: 0 <= j < r.value ==> cs[j].pkg != pkg
    ensures r.None? ==> forall j :: 0 <= j < |cs| ==> cs[j].pkg != pkg
  {
    if |cs| == 0 then None
    else if cs[0].pkg == pkg then Some(0)
    else
      match FirstMatch(cs[1..], pkg)
      case None => None
      case Some(i) => Some(i + 1)
  }

  /** The controller a resolution pass picks: none when there is no session
      list or no pinned activity, otherwise the first session owned by the
      pinned activity's package, if there is one. */
  function Candidate(controllers: Option<seq<Controller>>, topPkg: Option<string>): (r: Option<Controller>)
    ensures r.None? <==>
      || controllers.None?
      || topPkg.None?
      || forall j :: 0 <= j < |controllers.value| ==> controllers.value[j].pkg != topPkg.value
    ensures r.Some? ==>
      exists i :: 0 <= i < |controllers.value|
        && controllers.value[i] == r.value
        && r.value.pkg == topPkg.value
        && forall j :: 0 <= j < i ==> controllers.value[j].pkg != topPkg.value
  {
    match controllers
    case None => None
    case Some(cs) =>
      match topPkg
      case None => None
      case Some(pkg) =>
        match FirstMatch(cs, pkg)
        case None => None
        case Some(i) => Some(cs[i])
  }

  /** Resolution of the active controller from the current session list and
      the top pinned activity's package. Afterwards the active controller has
      the identity of the first session owned by that package, or there is no
      active controller when no session matches. */
  function ResolveActiveMediaController(s: State, controllers: Option<seq<Controller>>, topPkg: Option<string>): (r: Step)
    ensures r.state.listeners == s.listeners
    ensures r.state.active.None? <==>
      || controllers.None?
      || topPkg.None?
      || forall j :: 0 <= j < |controllers.value| ==> controllers.value[j].pkg != topPkg.value
    ensures r.state.active.Some? ==>
      exists i :: 0 <= i < |controllers.value|
        && controllers.value[i].id == r.state.active.value.id
        && controllers.value[i].pkg == topPkg.value
        && forall j :: 0 <= j < i ==> controllers.value[j].pkg != topPkg.value
    ensures IdOf(r.state.active) == IdOf(s.active) ==> r == Step(s, [])
    ensures IdOf(r.state.active) != IdOf(s.active) ==> r.state.active == Candidate(controllers, topPkg)
    ensures IdOf(r.state.active) != IdOf(s.active) ==>
      SwapLog(r.effects, s.active, r.state.active, s.listeners, MediaActions(r.state.active))
    ensures r.state.registered == Replay(s.registered, r.effects)
  {
    SetActiveMediaController(s, Candidate(controllers, topPkg))
  }

  /** Entering picture-in-picture resolves against whatever the session
      registry reports, which may be no list at all. */
  function OnActivityPinned(s: State, sessions: Option<seq<Controller>>, topPkg: Option<string>): (r: Step)
    ensures r.state.listeners == s.listeners
    ensures r.state.active.None? <==>
      || sessions.None?
      || topPkg.None?
      || forall j :: 0 <= j < |sessions.value| ==> sessions.value[j].pkg != topPkg.value
    ensures r.state.active.Some? ==>
      exists i :: 0 <= i < |sessions.value|
        && sessions.value[i].id == r.state.active.value.id
        && sessions.value[i].pkg == topPkg.value
        && forall j :: 0 <= j < i ==> sessions.value[j].pkg != topPkg.value
    ensures IdOf(r.state.active) == IdOf(s.active) ==> r == Step(s, [])
    ensures IdOf(r.state.active) != IdOf(s.active) ==> r.state.active == Candidate(sessions, topPkg)
    ensures IdOf(r.state.active) != IdOf(s.active) ==>
      SwapLog(r.effects, s.active, r.state.active, s.listeners, MediaActions(r.state.active))
    ensures r.state.registered == Replay(s.registered, r.effects)
  {
    ResolveActiveMediaController(s, sessions, topPkg)
  }

  /** Adds a listener. A new one is appended and immediately receives the
      current actions; one already present changes nothing and hears nothing. */
  function AddListener(s: State, l: ListenerId): (r: Step)
    ensures l in s.listeners ==> r == Step(s, [])
    ensures l !in s.listeners ==>
      && r.state.listeners == s.listeners + [l]
      && r.effects == [Deliver(l, MediaActions(s.active))]
    ensures r.state.active == s.active && r.state.registered == s.registered
    ensures l in r.state.listeners
    ensures NoDup(s.listeners) ==> NoDup(r.state.listeners)
  {
    if l in s.listeners then Step(s, [])
    else
      AppendKeepsNoDup(s.listeners, l);
      Step(s.(listeners := s.listeners + [l]), [Deliver(l, MediaActions(s.active))])
  }

  /** Removes a listener. It always receives an empty action list first, even
      when it was not registered; one occurrence of it leaves the list. */
  function RemoveListener(s: State, l: ListenerId): (r: Step)
    ensures r.effects == [Deliver(l, [])]
    ensures r.state.active == s.active && r.state.registered == s.registered
    ensures multiset(r.state.listeners) == multiset(s.listeners) - multiset{l}
    ensures l !in s.listeners ==> r.state == s
  {
    RemoveFirstMultiset(s.listeners, l);
    Step(s.(listeners := RemoveFirst(s.listeners, l)), [Deliver(l, [])])
  }

  /** On a duplicate-free list, removal leaves the listener absent, keeps the
      list duplicate-free, and keeps the other listeners in their order. */
  lemma RemoveListenerKeepsOrder(s: State, l: ListenerId)
    requires NoDup(s.listeners)
    ensures RemoveListener(s, l).state.listeners == Without(s.listeners, l)
    ensures l !in RemoveListener(s, l).state.listeners
    ensures NoDup(RemoveListener(s, l).state.listeners)
  {
    RemoveFirstIsWithout(s.listeners, l);
    WithoutKeepsNoDup(s.listeners, l);
  }

  lemma {:induction false} RemoveFirstOfAppended(xs: seq<ListenerId>, l: ListenerId)
    requires l !in xs
    ensures RemoveFirst(xs + [l], l) == xs
  {
    var ys := xs + [l];
    if |xs| == 0 {
      assert ys == [l];
      assert RemoveFirst(ys, l) == ys[1..];
    } else {
      assert ys[0] == xs[0] && xs[0] != l;
      assert ys[1..] == xs[1..] + [l];
      assert RemoveFirst(ys, l) == [ys[0]] + RemoveFirst(ys[1..], l);
      RemoveFirstOfAppended(xs[1..], l);
      assert xs == [xs[0]] + xs[1..];
    }
  }

  /** Adding a new listener and then removing it restores the state; the
      listener hears the current actions and then the empty list. */
  lemma AddThenRemove(s: State, l: ListenerId)
    requires l !in s.listeners
    ensures RemoveListener(AddListener(s, l).state, l).state == s
    ensures AddListener(s, l).effects + RemoveListener(AddListener(s, l).state, l).effects
      == [Deliver(l, MediaActions(s.active)), Deliver(l, [])]
  {
    RemoveFirstOfAppended(s.listeners, l);
  }

  /** The playback callback: the active controller now reports `pb`, and every
      listener, in order, receives the same freshly computed action list. */
  function OnPlaybackStateChanged(s: State, pb: Option<PlaybackState>): (r: Step)
    ensures r.state.listeners == s.listeners && r.state.registered == s.registered
    ensures IdOf(r.state.active) == IdOf(s.active)
    ensures r.state.active.Some? ==> r.state.active.value.playback == pb
    ensures r.state.active.Some? ==> r.state.active.value.pkg == s.active.value.pkg
    ensures |r.effects| == |s.listeners|
    ensures forall i :: 0 <= i < |r.effects| ==> r.effects[i] == Deliver(s.listeners[i], MediaActions(r.state.active))
  {
    var active' :=
      match s.active
      case None => None
      case Some(c) => Some(c.(playback := pb));
    Step(s.(active := active'), Notify(s.listeners, MediaActions(active')))
  }

  /** The broadcast receiver: the play broadcast sends play to the active
      controller, the pause broadcast sends pause, anything else is ignored.
      The active controller is dereferenced without a check for the two known
      broadcasts, so the caller must guarantee one is set. */
  function OnReceive(s: State, intentAction: string): (r: seq<Effect>)
    requires intentAction == ACTION_PLAY || intentAction == ACTION_PAUSE ==> s.active.Some?
    ensures intentAction == ACTION_PLAY ==> r == [Transport(s.active.value.id, Play)]
    ensures intentAction == ACTION_PAUSE ==> r == [Transport(s.active.value.id, Pause)]
    ensures intentAction != ACTION_PLAY && intentAction != ACTION_PAUSE ==> r == []
  {
    match CommandFor(intentAction)
    case None => []
    case Some(cmd) => [Transport(s.active.value.id, cmd)]
  }

  /** Pressing the button the overlay offers reaches the receiver as that
      action's broadcast and sends that action's command to the active
      session: pause when it is not playing, play when it is. */
  lemma PressOfferedAction(s: State, a: MediaAction)
    requires MediaActions(s.active) == [a]
    ensures s.active.Some?
    ensures OnReceive(s, IntentOf(a)) == [Transport(s.active.value.id, CommandOf(a))]
    ensures CommandOf(a) == Pause <==> !s.active.value.playback.value.isActive
  {
    OfferedActionCommand(s.active, a);
  }

  /** Every callback the host may deliver. */
  datatype Event =
    | SessionsChanged(controllers: Option<seq<Controller>>, topPkg: Option<string>)
    | ActivityPinned(sessions: Option<seq<Controller>>, pinnedPkg: Option<string>)
    | ListenerAdded(added: ListenerId)
    | ListenerRemoved(removed: ListenerId)
    | PlaybackChanged(playback: Option<PlaybackState>)
    | Broadcast(intentAction: string)

  /** The event does not reach the receiver's unchecked dereference. */
  predicate Enabled(s: State, e: Event)
  {
    e.Broadcast? && (e.intentAction == ACTION_PLAY || e.intentAction == ACTION_PAUSE) ==> s.active.Some?
  }

  /** One callback, dispatched to its transition. */
  function Handle(s: State, e: Event): Step
    requires Enabled(s, e)
  {
    match e
    case SessionsChanged(cs, top) => ResolveActiveMediaController(s, cs, top)
    case ActivityPinned(cs, top) => OnActivityPinned(s, cs, top)
    case ListenerAdded(l) => AddListener(s, l)
    case ListenerRemoved(l) => RemoveListener(s, l)
    case PlaybackChanged(pb) => OnPlaybackStateChanged(s, pb)
    case Broadcast(action) => Step(s, OnReceive(s, action))
  }

  /** Every callback keeps the invariant, and the registrations it leaves are
      those its own effect log records. */
  lemma HandleKeepsValid(s: State, e: Event)
    requires Enabled(s, e)
    requires Valid(s)
    ensures Valid(Handle(s, e).state)
    ensures Handle(s, e).state.registered == Replay(s.registered, Handle(s, e).effects)
  {
    match e
    case SessionsChanged(cs, top) =>
      SetActiveKeepsValid(s, Candidate(cs, top));
    case ActivityPinned(cs, top) =>
      SetActiveKeepsValid(s, Candidate(cs, top));
    case ListenerAdded(l) =>
      var r := AddListener(s, l);
      assert Handle(s, e) == r;
      ReplayIgnores(s.registered, r.effects);
    case ListenerRemoved(l) =>
      var r := RemoveListener(s, l);
      assert Handle(s, e) == r;
      ReplayIgnores(s.registered, r.effects);
      RemoveListenerKeepsOrder(s, l);
    case PlaybackChanged(pb) =>
      var r := OnPlaybackStateChanged(s, pb);
      assert Handle(s, e) == r;
      ReplayIgnores(s.registered, r.effects);
    case Broadcast(action) =>
      var r := Step(s, OnReceive(s, action));
      assert Handle(s, e) == r;
      ReplayIgnores(s.registered, r.effects);
  }

  /** A sequence of callbacks from state `s`: the final state and the whole
      effect log, or `None` when some event reaches the receiver's unchecked
      dereference (the Java `PipMediaController` would fail there). */
  function Run(s: State, es: seq<Event>): Option<Step>
    decreases |es|
  {
    if |es| == 0 then Some(Step(s, []))
    else if !Enabled(s, es[0]) then None
    else
      var first := Handle(s, es[0]);
      match Run(first.state, es[1..])
      case None => None
      case Some(rest) => Some(Step(rest.state, first.effects + rest.effects))
  }

  /** Any run from a valid state ends in a valid state, and the registrations
      of the final state are exactly what replaying the run's log yields. */
  lemma {:induction false} RunKeepsValid(s: State, es: seq<Event>)
    requires Valid(s)
    requires Run(s, es).Some?
    ensures Valid(Run(s, es).value.state)
    ensures Run(s, es).value.state.registered == Replay(s.registered, Run(s, es).value.effects)
    decreases |es|
  {
    if |es| > 0 {
      var first := Handle(s, es[0]);
      HandleKeepsValid(s, es[0]);
      RunKeepsValid(first.state, es[1..]);
      var rest := Run(first.state, es[1..]).value;
      ReplayAppend(s.registered, first.effects, rest.effects);
    }
  }

  /** From construction, after any run, the register/unregister calls in the log
      leave the callback on at most one controller, the active one, and the
      listener list is duplicate-free. */
  lemma CallbackFollowsActive(es: seq<Event>)
    requires Run(Init, es).Some?
    ensures Replay({}, Run(Init, es).value.effects) == IdsOf(Run(Init, es).value.state.active)
    ensures |Replay({}, Run(Init, es).value.effects)| <= 1
    ensures NoDup(Run(Init, es).value.state.listeners)
  {
    RunKeepsValid(Init, es);
  }

  /** Setting the same candidate twice: the second call is a no-op. */
  lemma SetActiveIdempotent(s: State, candidate: Option<Controller>)
    ensures var once := SetActiveMediaController(s, candidate);
      SetActiveMediaController(once.state, candidate) == Step(once.state, [])
  {
  }

  /** A worked resolution: two sessions, the first playing and pausable in
      package "a", the second paused and playable in package "b"; with "b"
      pinned, the second becomes active, gains the callback, and the overlay
      offers the pause button. */
  lemma ResolveExample()
    ensures var sA := Controller(1, "a", Some(PlaybackState(true, {PauseCapability})));
      var sB := Controller(2, "b", Some(PlaybackState(false, {PlayCapability})));
      var r := ResolveActiveMediaController(Init, Some([sA, sB]), Some("b"));
      && r.state.active == Some(sB)
      && r.effects == [RegisterCallback(2)]
      && MediaActions(r.state.active) == [PauseAction]
  {
    var sA := Controller(1, "a", Some(PlaybackState(true, {PauseCapability})));
    var sB := Controller(2, "b", Some(PlaybackState(false, {PlayCapability})));
    assert [sA, sB][1..] == [sB];
    assert FirstMatch([sA, sB], "b") == Some(1);
  }

  /** With no session owned by the pinned package, nothing is active and no
      action is offered. */
  lemma NoMatchExample()
    ensures var sA := Controller(1, "a", Some(PlaybackState(true, {PauseCapability})));
      var r := ResolveActiveMediaController(Init, Some([sA]), Some("c"));
      && r.state.active == None
      && r.effects == []
      && MediaActions(r.state.active) == []
  {
  }
}

=== FILE: listeners.dfy ===
/** The ordered listener list and the fan-out that notifies it. */
module PipListeners {
  import opened PipTypes

  /** No element occurs twice. */
  predicate NoDup(xs: seq<ListenerId>)
  {
    forall i, j :: 0 <= i < j < |xs| ==> xs[i] != xs[j]
  }

  /** Reference definition: every element other than `x`, in the original order. */
  function Without(xs: seq<ListenerId>, x: ListenerId): (r: seq<ListenerId>)
    ensures x !in r
    ensures forall y :: y in r <==> y in xs && y != x
    ensures |r| <= |xs|
  {
    if |xs| == 0 then []
    else if xs[0] == x then Without(xs[1..], x)
    else [xs[0]] + Without(xs[1..], x)
  }

  /** List removal by value: drops the first occurrence of `x`, if any. */
  function RemoveFirst(xs: seq<ListenerId>, x: ListenerId): (r: seq<ListenerId>)
    ensures x !in xs ==> r == xs
    ensures x in xs ==> |r| == |xs| - 1
  {
    if |xs| == 0 then []
    else if xs[0] == x then xs[1..]
    else [xs[0]] + RemoveFirst(xs[1..], x)
  }

  /** Removal by value takes out exactly one occurrence, when there is one. */
  lemma {:induction false} RemoveFirstMultiset(xs: seq<ListenerId>, x: ListenerId)
    ensures multiset(RemoveFirst(xs, x)) == multiset(xs) - multiset{x}
  {
    if |xs| > 0 {
      assert xs == [xs[0]] + xs[1..];
      if xs[0] != x {
        RemoveFirstMultiset(xs[1..], x);
      }
    }
  }

  /** Position of the first occurrence of `x`. */
  function FirstIndex(xs: seq<ListenerId>, x: ListenerId): (i: nat)
    requires x in xs
    ensures i < |xs| && xs[i] == x
    ensures forall k :: 0 <= k < i ==> xs[k] != x
  {
    if xs[0] == x then 0
    else
      assert x in xs[1..] by {
        var k :| 0 <= k < |xs| && xs[k] == x;
        assert xs[1..][k - 1] == x;
      }
      1 + FirstIndex(xs[1..], x)
  }

  /** The occurrence removed is the first one: everything before it is kept,
      and so is everything after it, each part in its original order. */
  lemma {:induction false} RemoveFirstDropsFirst(xs: seq<ListenerId>, x: ListenerId)
    requires x in xs
    ensures x !in xs[..FirstIndex(xs, x)]
    ensures RemoveFirst(xs, x) == xs[..FirstIndex(xs, x)] + xs[FirstIndex(xs, x) + 1..]
  {
    var n := FirstIndex(xs, x);
    assert x !in xs[..n] by {
      forall k | 0 <= k < n ensures xs[..n][k] != x {
        assert xs[..n][k] == xs[k];
      }
    }
    if xs[0] == x {
      assert n == 0;
      assert xs[..0] + xs[1..] == xs[1..];
    } else {
      var tail := xs[1..];
      var i := FirstIndex(tail, x);
      assert n == i + 1;
      RemoveFirstDropsFirst(tail, x);
      assert RemoveFirst(xs, x) == [xs[0]] + RemoveFirst(tail, x);
      assert xs[..n] == [xs[0]] + tail[..i];
      assert xs[n + 1..] == tail[i + 1..];
    }
  }

  lemma {:induction false} WithoutAbsent(xs: seq<ListenerId>, x: ListenerId)
    requires x !in xs
    ensures Without(xs, x) == xs
  {
    if |xs| > 0 {
      assert xs == [xs[0]] + xs[1..];
      WithoutAbsent(xs[1..], x);
    }
  }

  /** On a duplicate-free list, removing the first occurrence removes every
      occurrence and keeps the others in their relative order. */
  lemma {:induction false} RemoveFirstIsWithout(xs: seq<ListenerId>, x: ListenerId)
    requires NoDup(xs)
    ensures RemoveFirst(xs, x) == Without(xs, x)
  {
    if |xs| > 0 {
      assert NoDup(xs[1..]) by {
        forall i, j | 0 <= i < j < |xs[1..]| ensures xs[1..][i] != xs[1..][j] {
          assert xs[1..][i] == xs[i + 1] && xs[1..][j] == xs[j + 1];
        }
      }
      if xs[0] == x {
        assert x !in xs[1..] by {
          forall k | 0 <= k < |xs[1..]| ensures xs[1..][k] != x {
            assert xs[1..][k] == xs[k + 1];
          }
        }
        WithoutAbsent(xs[1..], x);
      } else {
        RemoveFirstIsWithout(xs[1..], x);
      }
    }
  }

  /** Removing elements keeps a list duplicate-free. */
  lemma {:induction false} WithoutKeepsNoDup(xs: seq<ListenerId>, x: ListenerId)
    requires NoDup(xs)
    ensures NoDup(Without(xs, x))
  {
    if |xs| > 0 {
      assert NoDup(xs[1..]) by {
        forall i, j | 0 <= i < j < |xs[1..]| ensures xs[1..][i] != xs[1..][j] {
          assert xs[1..][i] == xs[i + 1] && xs[1..][j] == xs[j + 1];
        }
      }
      WithoutKeepsNoDup(xs[1..], x);
      if xs[0] != x {
        assert xs[0] !in xs[1..] by {
          forall k | 0 <= k < |xs[1..]| ensures xs[1..][k] != xs[0] {
            assert xs[1..][k] == xs[k + 1];
          }
        }
        var rest := Without(xs[1..], x);
        assert xs[0] !in rest;
        forall i, j | 0 <= i < j < |[xs[0]] + rest| ensures ([xs[0]] + rest)[i] != ([xs[0]] + rest)[j] {
          if i == 0 {
            assert ([xs[0]] + rest)[j] == rest[j - 1];
          } else {
            assert ([xs[0]] + rest)[i] == rest[i - 1] && ([xs[0]] + rest)[j] == rest[j - 1];
          }
        }
      }
    }
  }

  /** Appending an element that is not yet present keeps a list duplicate-free. */
  lemma AppendKeepsNoDup(xs: seq<ListenerId>, x: ListenerId)
    requires x !in xs
    ensures NoDup(xs) ==> NoDup(xs + [x])
  {
    if NoDup(xs) {
      forall i, j | 0 <= i < j < |xs + [x]| ensures (xs + [x])[i] != (xs + [x])[j] {
        if j == |xs| {
          assert (xs + [x])[i] == xs[i];
        } else {
          assert (xs + [x])[i] == xs[i] && (xs + [x])[j] == xs[j];
        }
      }
    }
  }

  /** The fan-out of one action list: one delivery per listener, in list order,
      all carrying the same list. */
  function Deliveries(ls: seq<ListenerId>, actions: seq<MediaAction>): (r: seq<Effect>)
    ensures |r| == |ls|
    ensures forall i :: 0 <= i < |r| ==> r[i] == Deliver(ls[i], actions)
  {
    if |ls| == 0 then []
    else [Deliver(ls[0], actions)] + Deliveries(ls[1..], actions)
  }

  /** The listener notification: nothing when no listener is registered,
      otherwise the fan-out to every listener. */
  function Notify(ls: seq<ListenerId>, actions: seq<MediaAction>): (r: seq<Effect>)
    ensures |r| == |ls|
    ensures forall i :: 0 <= i < |r| ==> r[i] == Deliver(ls[i], actions)
    ensures forall e :: e in r ==> e.Deliver? && e.listener in ls && e.actions == actions
  {
    if |ls| == 0 then [] else Deliveries(ls, actions)
  }
}

=== FILE: registrations.dfy ===
/** The playback callback's registrations as recorded in an effect log: which
    controllers carry the callback after replaying the register and unregister
    calls, and how replay composes. */
module PipRegistrations {
  import opened PipTypes
  import opened PipListeners

  /** The effect does not touch callback registrations. */
  predicate NotRegistration(e: Effect)
  {
    !e.RegisterCallback? && !e.UnregisterCallback?
  }

  /** The set of controllers carrying the callback after replaying the
      register/unregister calls of a log, starting from `reg`. */
  function Replay(reg: set<ControllerId>, effects: seq<Effect>): set<ControllerId>
    decreases |effects|
  {
    if |effects| == 0 then reg
    else
      var reg' :=
        match effects[0]
        case RegisterCallback(c) => reg + {c}
        case UnregisterCallback(c) => reg - {c}
        case _ => reg;
      Replay(reg', effects[1..])
  }

  /** Replaying a concatenated log is replaying its parts in turn. */
  lemma {:induction false} ReplayAppend(reg: set<ControllerId>, a: seq<Effect>, b: seq<Effect>)
    ensures Replay(reg, a + b) == Replay(Replay(reg, a), b)
    decreases |a|
  {
    if |a| > 0 {
      assert (a + b)[0] == a[0];
      assert (a + b)[1..] == a[1..] + b;
      var reg' :=
        match a[0]
        case RegisterCallback(c) => reg + {c}
        case UnregisterCallback(c) => reg - {c}
        case _ => reg;
      ReplayAppend(reg', a[1..], b);
    } else {
      assert a + b == b;
    }
  }

  /** A log with no register/unregister call leaves the registrations alone. */
  lemma {:induction false} ReplayIgnores(reg: set<ControllerId>, effects: seq<Effect>)
    requires forall i :: 0 <= i < |effects| ==> NotRegistration(effects[i])
    ensures Replay(reg, effects) == reg
    decreases |effects|
  {
    if |effects| > 0 {
      assert NotRegistration(effects[0]);
      ReplayIgnores(reg, effects[1..]);
    }
  }

  /** Notifications never change which controllers carry the callback. */
  lemma NotifyKeepsRegistrations(reg: set<ControllerId>, ls: seq<ListenerId>, actions: seq<MediaAction>)
    ensures Replay(reg, Notify(ls, actions)) == reg
  {
    ReplayIgnores(reg, Notify(ls, actions));
  }
}

=== FILE: types.dfy ===
/** Data model of the picture-in-picture media controller: the sessions it may
    pick, the actions it offers, the effects it has on the outside world, and
    its own state. Platform objects are replaced by plain values; identity of a
    media controller is its `id`. */
module PipTypes {

  datatype Option<+T> = None | Some(value: T)

  /** Identity of a media controller object (the Java `PipMediaController` compares references). */
  type ControllerId = nat

  /** Identity of an action listener (the Java `PipMediaController` compares with `equals`). */
  type ListenerId = nat

  /** One bit of a playback state's capability mask. Only the play and pause
      bits are consulted; every other bit is an `OtherCapability`. */
  datatype Capability = PlayCapability | PauseCapability | OtherCapability(bit: nat)

  /** A session's playback state: whether its state code counts as active
      (playing, buffering, seeking, ...) and the capability bits it advertises. */
  datatype PlaybackState = PlaybackState(isActive: bool, actions: set<Capability>)

  /** A media controller: its identity, the package that owns the session, and
      its current playback state, if it has one. */
  datatype Controller = Controller(id: ControllerId, pkg: string, playback: Option<PlaybackState>)

  /** The two actions the overlay may show: the pause button and the play button. */
  datatype MediaAction = PlayAction | PauseAction

  /** Transport commands sent to the active session. */
  datatype Command = Play | Pause

  /** What a transition does to the outside world, in the order it does it. */
  datatype Effect =
    | Deliver(listener: ListenerId, actions: seq<MediaAction>)
    | RegisterCallback(controller: ControllerId)
    | UnregisterCallback(controller: ControllerId)
    | Transport(controller: ControllerId, command: Command)

  /** The controller's mutable fields: the active media controller, the ordered
      listener list, and the controllers that currently carry the playback
      callback. */
  datatype State = State(active: Option<Controller>, listeners: seq<ListenerId>, registered: set<ControllerId>)

  /** The outcome of one transition: the new state and the effects, in order. */
  datatype Step = Step(state: State, effects: seq<Effect>)

  /** Identity of an optional controller (null compares equal only to null). */
  function IdOf(c: Option<Controller>): Option<ControllerId>
  {
    match c
    case None => None
    case Some(x) => Some(x.id)
  }

  /** The identities an optional controller contributes: none or exactly one. */
  function IdsOf(c: Option<Controller>): (r: set<ControllerId>)
    ensures c.None? <==> r == {}
    ensures c.Some? ==> r == {c.value.id}
  {
    match c
    case None => {}
    case Some(x) => {x.id}
  }
}
